=== FILE: README.md ===
# web-operator reconciler, modelled in Dafny

The web-operator is a Kubernetes controller for a `Web` custom resource. Each time
the resource or one of its dependents changes, `WebReconciler.Reconcile` runs one
pass. The pass fetches the `Web`, makes sure a ConfigMap `<name>-cm` holding the
Web's HTML exists, and then makes sure a Deployment `<name>deployment` serving that
ConfigMap exists. It creates each dependent that is missing and never changes one
that is already there. The pass ends in `Done` or in the first error it meets, and
the work queue retries an error later.

This project models that pass as a pure function:

    Reconcile(store, faults, req) -> Pass(store', calls, writes, outcome)

- `Api` (`api.dfy`) mirrors the resource types: `Web` with its spec and status, and
  the ConfigMap and Deployment fields the controller sets.
- `Store` (`store.dfy`) stands in for the controller-runtime client. It keeps one
  map per kind, keyed by (namespace, name). `Get`, `Create` and
  `SetControllerReference` consult a fault oracle, a map from API call to error. An
  injected `NotFound` on a Get stands for a stale NotFound read (a cache that has
  not yet seen an object). A stale read that still finds a deleted object is not
  expressible: `Get` finds only what is stored.
- `Naming` (`naming.dfy`) and `Desired` (`desired.dfy`) hold the derived names and
  the two desired-state builders.
- `Reconciler` (`reconciler.dfy`) holds the pass itself. It is built from one
  generic step, "get, else build, own and create", used first for the ConfigMap and
  then for the Deployment.
- `Properties` (`properties.dfy`) states what one pass promises.
- `Retry` (`retry.dfy`) states what repeated passes promise.

Where the schema type and the controller disagree, the model follows the controller:

- The `WebSpec` type declares only `Size` and `ContainerPort`. The controller reads
  `Spec.Image` and `Spec.HtmlContent` instead. `Api.WebSpec` carries all four
  fields. Size and port never reach the Deployment (`Desired.DeploymentInputs`), and
  no replica count is set.
- The suffix `deployment` has no separator, so one might fear that `x` and
  `xdeployment` collide. They do not: each derived name is injective in the Web's
  name, so two Webs in one namespace never share a dependent key
  (`Naming.DependentKeysInjective`).
- The Deployment's volume refers to `cm.Name`. That is the name of the ConfigMap
  object the controller holds: the fetched one if it existed, else the one it built.
  The model keeps this. It equals `<name>-cm` whenever every stored object sits
  under the key its metadata names (`Store.WellFormed`, which every pass preserves).

## Model

| member | source | states |
|---|---|---|
| Reconciler.Reconcile | internal/controller/web_controller.go:59-161 | The first call is always the fetch of the Web. If the Web is missing, the pass is a no-op that ends in Done. Any other fetch error is returned. Both cases make no writes. Every pass only adds the objects listed in its writes: Webs and existing dependents are unchanged. A pass with no faults always ends in Done. |
| Reconciler.EnsureObject | internal/controller/web_controller.go:72-97 | One dependent step. A found object is used as it is. A Get error other than NotFound aborts before anything else. An owner-reference error aborts before Create. Among Create errors, only AlreadyExists is forgiven. A successful Create stores exactly the owned object under a free key. |
| Reconciler.ConfigMapStep | internal/controller/web_controller.go:72-97 | The step's only possible write is the owned desired ConfigMap, under a free key. Without faults the step succeeds and hands on the name of the ConfigMap now stored. |
| Reconciler.DeploymentStep | internal/controller/web_controller.go:99-158 | The step's only possible write is the owned desired Deployment, under a free key. Without faults the step succeeds and the Deployment is stored. |
| Naming.ConfigMapNameInjective | internal/controller/web_controller.go:73 | Two Web names give the same `-cm` name if and only if they are equal. |
| Naming.DeploymentNameInjective | internal/controller/web_controller.go:100 | Two Web names give the same `deployment` name if and only if they are equal, even though the suffix has no separator. |
| Naming.DependentKeysInjective | internal/controller/web_controller.go:73-100 | Distinct Webs in one namespace never share a ConfigMap key or a Deployment key. |
| Desired.ConfigMapShape | internal/controller/web_controller.go:75-83 | The desired ConfigMap has the Web's namespace, its derived name and no owner yet. Its data has exactly one key, `index.html`, and that key holds the Web's HTML content. |
| Desired.DeploymentShape | internal/controller/web_controller.go:102-145 | The desired Deployment has the Web's namespace and derived name, and sets no replica count. Its selector is `{app: name}` and matches its pod labels. It has exactly one container, `web-container`, running the Web's image and mounting `html` at `/app`. Every mount resolves to a declared volume. The only ConfigMap its volumes refer to is the given one. |
| Desired.ConfigMapInputs | internal/controller/web_controller.go:75-83 | Two Webs get the same desired ConfigMap if and only if they agree on name, namespace and HTML content. |
| Desired.DeploymentInputs | internal/controller/web_controller.go:102-145 | Two requests get the same desired Deployment if and only if they agree on the Web's name, namespace and image and on the ConfigMap name. Size and container port never affect it. |
| Properties.CreatesMissingConfigMap | internal/controller/web_controller.go:73-91 | A missing ConfigMap is the first write of the pass. It is named `name + "-cm"`, sits in the Web's namespace, holds exactly `{"index.html": htmlContent}` and carries the Web's controller reference. |
| Properties.CreatesMissingDeployment | internal/controller/web_controller.go:99-153 | Once the ConfigMap step has ended in Done (found, created, or forgiven after a stale NotFound read or AlreadyExists), a missing Deployment is the last write of the pass and the pass ends in Done. The Deployment has the shape listed for `Desired.DeploymentShape`, carries the Web's controller reference, and its volume refers to `name + "-cm"`. |
| Properties.ConfigMapBeforeDeployment | internal/controller/web_controller.go:72-158 | For a Web with no dependents and no faults, the writes are exactly the ConfigMap and then the Deployment. The Deployment's volume names exactly the ConfigMap that was stored. |
| Properties.AlreadyExistsIsSuccess | internal/controller/web_controller.go:84-153 | When the only faults are stale NotFound reads and lost create races (AlreadyExists), a pass for an existing Web ends in Done. |
| Properties.LostCreateRace | internal/controller/web_controller.go:73-153 | If both Gets read stale NotFound while both dependents exist, both Creates are attempted and hit AlreadyExists. The pass still ends in Done, with no writes and no change to the store. |
| Properties.ConfigMapFailureShortCircuits | internal/controller/web_controller.go:84-97 | A ConfigMap Get error other than NotFound, an owner-reference error or a Create error other than AlreadyExists ends the pass with that error. The Deployment is never fetched and nothing is written. After an owner-reference error, Create is never called. |
| Properties.DeploymentFailureShortCircuits | internal/controller/web_controller.go:146-158 | Once the ConfigMap step has ended in Done, a Deployment Get, owner-reference or Create failure ends the pass with that error, as its last call, and leaves the Deployments unchanged. After an owner-reference error, Create is never called. |
| Properties.WritesAreOrderedCreates | internal/controller/web_controller.go:72-158 | The writes of a pass are none, the ConfigMap, the Deployment, or the ConfigMap followed by the Deployment. Each write is under a key that was free before the pass. There are no writes when the Web is missing. |
| Properties.ExistingDependentsUntouched | internal/controller/web_controller.go:72-158 | An existing ConfigMap or Deployment is never changed, even when it no longer matches the spec. The Webs are never changed. |
| Properties.ReconcilePreservesWellFormed | internal/controller/web_controller.go:75-106 | Every object a pass creates is stored under the key its own metadata names. |
| Properties.ConvergedIsFixpoint | internal/controller/web_controller.go:72-160 | Once both dependents exist, a fault-free pass makes exactly three Gets, no writes and no change, and ends in Done. |
| Properties.CleanPassConverges | internal/controller/web_controller.go:72-160 | After a fault-free pass on an existing Web, both of its dependents exist. |
| Properties.Idempotent | internal/controller/web_controller.go:59-161 | Two fault-free passes both end in Done. The second makes no writes and leaves the store as the first left it. |
| Properties.DoneMeansConverged | internal/controller/web_controller.go:72-160 | A pass on an existing Web that ends in Done leaves both dependents in place, even after stale NotFound dependent reads or a store-reported AlreadyExists, provided the Web itself was read and no Create reported AlreadyExists the store does not bear out. |
| Properties.IdempotentAfterDone | internal/controller/web_controller.go:59-161 | After any pass that ended in Done under those faults, a fault-free pass ends in Done with no writes and leaves the store as the first pass left it. |
| Properties.CreatesOnlyMissingDeployment | internal/controller/web_controller.go:72-160 | If the ConfigMap exists and the Deployment does not, a fault-free pass writes only the Deployment and leaves the ConfigMaps as they were. |
| Properties.ResumesAfterDeploymentFailure | internal/controller/web_controller.go:72-160 | If the Deployment's Create fails after the ConfigMap was created, the pass returns that error. The next fault-free pass creates only the Deployment and keeps that ConfigMap. |
| Retry.RunPasses | internal/controller/web_controller.go:59-161 | Across any sequence of passes, whatever their faults, no Web is touched and no existing dependent changes. Every pass that meets no faults ends in Done. |
| Retry.CleanPassEventuallyConverges | internal/controller/web_controller.go:59-161 | If any pass in a sequence of retries meets no faults, both dependents of the Web exist at the end, whatever failed before or after. |
| Retry.DonePassEventuallyConverges | internal/controller/web_controller.go:59-161 | If any pass in a sequence of retries ends in Done (with the Web read and no unconfirmed AlreadyExists), both dependents of the Web exist at the end, whatever failed before or after. |
| Retry.ConvergedPersists | internal/controller/web_controller.go:59-161 | Once both dependents exist, they still exist after any further passes. |
| Retry.ConvergedIsStable | internal/controller/web_controller.go:59-161 | Once both dependents exist, any number of fault-free passes leaves the store unchanged. |

## Left out

- `SetupWithManager` (web_controller.go:164-170) only wires up the watches and the manager. It has no decision logic.
- Logging calls and the RBAC markers are side output and code-generation annotations.
- Context cancellation and concurrency between passes belong to the work queue. A
  cancelled call is one more error the fault oracle can inject. A racing creator
  shows up only as a stale NotFound read followed by AlreadyExists.
- Store.SetControllerReference models ctrl.SetControllerReference only as a call
  that may fail (as the oracle says) or else appends the Web's controller
  reference. The library's own checks (an existing controller owner, a
  cross-namespace owner, a scheme lookup) are not modelled, because that code is a
  foreign library call.
- Store.Create does not model the fields the API server fills in (uid,
  resourceVersion, the defaulted replica count), because the controller never reads
  them.
- Store.Create does not model the API server's validation either: label values of
  at most 63 characters and object names of at most 253. The controller puts the
  Web's name, unchecked, in the label `app` and prefixes it to both dependent names,
  so for a Web whose name exceeds 63 characters every Deployment Create is rejected
  as Invalid on every pass. Past 250 characters `<name>-cm` exceeds 253 and the
  ConfigMap Create is rejected too.
  For such Webs no fault-free pass exists in the program, so the fault-free lemmas
  (`Reconciler.Reconcile`'s Done without faults, `Properties.CleanPassConverges`,
  `Properties.Idempotent`, `Retry.CleanPassEventuallyConverges`) do not apply to
  them; in the model that rejection is one more injected `Other` error.
- Reconciler.EnsureObject: if the oracle injects AlreadyExists on a Create whose key
  is absent from the model's store, the step still succeeds, as the code does. The
  object the concurrent creator made is not in the model, so in that case alone the
  contract does not promise that the dependent exists afterwards.
- Properties.DoneMeansConverged requires the Web's own Get to be unfaulted. A pass
  whose Web Get returns a stale NotFound ends in Done without touching the
  dependents, as the code does. A stale read that still finds a dependent someone
  just deleted is not modelled either (`Store.Get` finds only stored keys). In the
  program it makes the step do nothing and the pass end in Done with that dependent
  missing. In both cases Done is not conclusive.
- `ctrl.Result` always comes back empty. The requeue-after outcome is never used,
  so `Outcome` has only `Done` and `Failed`.
- The `Size` bounds 1..5 are validation markers enforced at admission, not by the
  controller. `Size` and `ContainerPort` are kept as 32-bit fields, but nothing
  reads them.
- `Status.Conditions` is kept as a data shape only. The controller never writes it.
- Scheme registration of the `Web` and `WebList` types is not modelled, because it
  contains no logic.

=== FILE: api.dfy ===
/** Data shapes of the Web custom resource and of the two Kubernetes objects the
    controller derives from it. Only the fields the controller reads or writes are
    kept; everything else the API server stores is left out. */
module Api {

  datatype Option<+T> = None | Some(value: T)

  /** Go's int32, used by the Web spec's numeric fields. */
  newtype int32 = x: int | -0x8000_0000 <= x < 0x8000_0000

  /** controller-runtime's NamespacedName / ObjectKey: the identity of a namespaced object. */
  datatype ObjectKey = ObjectKey(namespace: string, name: string)

  /** The three object kinds the controller reads or writes. */
  datatype Kind = WebKind | ConfigMapKind | DeploymentKind

  /** A back-link from a dependent to its owner; `controller` marks the managing owner. */
  datatype OwnerRef = OwnerRef(kind: Kind, name: string, controller: bool)

  datatype ObjectMeta = ObjectMeta(name: string, namespace: string, ownerRefs: seq<OwnerRef>)

  /** The key under which an object with this metadata is stored. */
  function KeyOf(meta: ObjectMeta): ObjectKey
  {
    ObjectKey(meta.namespace, meta.name)
  }

  // ----- the Web custom resource -----

  /** One status condition (metav1.Condition); never written by the controller. */
  datatype Condition = Condition(
    conditionType: string,
    status: string,
    observedGeneration: int,
    lastTransitionTime: int,
    reason: string,
    message: string)

  /** The Web spec. `size` and `containerPort` are the two fields the schema declares;
      `image` and `htmlContent` are the two fields the controller reads. */
  datatype WebSpec = WebSpec(size: int32, containerPort: int32, image: string, htmlContent: string)

  datatype WebStatus = WebStatus(conditions: seq<Condition>)

  datatype Web = Web(meta: ObjectMeta, spec: WebSpec, status: WebStatus)

  // ----- the ConfigMap -----

  datatype ConfigMap = ConfigMap(meta: ObjectMeta, data: map<string, string>)

  // ----- the Deployment -----

  datatype VolumeMount = VolumeMount(name: string, mountPath: string)

  datatype Container = Container(name: string, image: string, volumeMounts: seq<VolumeMount>)

  /** The only volume source the controller uses: a reference to a ConfigMap by name. */
  datatype VolumeSource = ConfigMapSource(configMapName: string)

  datatype Volume = Volume(name: string, source: VolumeSource)

  datatype PodSpec = PodSpec(containers: seq<Container>, volumes: seq<Volume>)

  datatype PodTemplate = PodTemplate(labels: map<string, string>, spec: PodSpec)

  /** `replicas` is None when the field is left unset (the API server then defaults it). */
  datatype DeploymentSpec = DeploymentSpec(
    replicas: Option<int32>,
    selector: map<string, string>,
    template: PodTemplate)

  datatype Deployment = Deployment(meta: ObjectMeta, spec: DeploymentSpec)
}

=== FILE: desired.dfy ===
/** The desired-state builders: the exact ConfigMap and Deployment the controller
    creates for a Web, before the owner reference is attached. */
module Desired {
  import opened Api
  import opened Naming

  const IndexFile := "index.html"
  const ContainerName := "web-container"
  const HtmlVolume := "html"
  const HtmlMountPath := "/app"

  /** The ConfigMap for `web`: one entry, index.html, holding the Web's content. */
  function DesiredConfigMap(web: Web): ConfigMap
  {
    ConfigMap(
      ObjectMeta(ConfigMapName(web.meta.name), web.meta.namespace, []),
      map[IndexFile := web.spec.htmlContent])
  }

  /** The Deployment for `web`, mounting the ConfigMap called `configMapName` at /app.
      No replica count is set. */
  function DesiredDeployment(web: Web, configMapName: string): Deployment
  {
    var labels := AppLabels(web.meta.name);
    var container := Container(ContainerName, web.spec.image, [VolumeMount(HtmlVolume, HtmlMountPath)]);
    var volume := Volume(HtmlVolume, ConfigMapSource(configMapName));
    Deployment(
      ObjectMeta(DeploymentName(web.meta.name), web.meta.namespace, []),
      DeploymentSpec(None, labels, PodTemplate(labels, PodSpec([container], [volume]))))
  }

  // ----- independent descriptions of a valid dependent -----

  /** Every label the selector asks for is carried by the pod template, so the
      Deployment selects its own pods. */
  predicate SelectorMatchesTemplate(d: Deployment)
  {
    forall k :: k in d.spec.selector ==>
      k in d.spec.template.labels && d.spec.template.labels[k] == d.spec.selector[k]
  }

  /** Every volume mount of every container names a volume of the pod. */
  predicate MountsResolve(d: Deployment)
  {
    var pod := d.spec.template.spec;
    forall i, j :: 0 <= i < |pod.containers| && 0 <= j < |pod.containers[i].volumeMounts| ==>
      exists v :: v in pod.volumes && v.name == pod.containers[i].volumeMounts[j].name
  }

  /** The ConfigMap names the pod's volumes refer to. */
  function ReferencedConfigMaps(d: Deployment): set<string>
  {
    set v | v in d.spec.template.spec.volumes :: v.source.configMapName
  }

  /** The ConfigMap carries the Web's identity and exactly one entry, index.html,
      whose value is the Web's content. */
  lemma ConfigMapShape(web: Web)
    ensures KeyOf(DesiredConfigMap(web).meta) == ConfigMapKey(web)
    ensures DesiredConfigMap(web).meta.ownerRefs == []
    ensures DesiredConfigMap(web).data.Keys == {IndexFile}
    ensures DesiredConfigMap(web).data[IndexFile] == web.spec.htmlContent
  {
  }

  /** The Deployment carries the Web's identity, sets no replica count, selects its
      own pods by {app: name}, runs exactly one container `web-container` with the
      Web's image, and every mount resolves to the one volume, which refers to the
      given ConfigMap. */
  lemma DeploymentShape(web: Web, configMapName: string)
    ensures var d := DesiredDeployment(web, configMapName);
      && KeyOf(d.meta) == DeploymentKey(web)
      && d.meta.ownerRefs == []
      && d.spec.replicas.None?
      && d.spec.selector == AppLabels(web.meta.name)
      && SelectorMatchesTemplate(d)
      && |d.spec.template.spec.containers| == 1
      && d.spec.template.spec.containers[0].name == ContainerName
      && d.spec.template.spec.containers[0].image == web.spec.image
      && d.spec.template.spec.containers[0].volumeMounts == [VolumeMount(HtmlVolume, HtmlMountPath)]
      && MountsResolve(d)
      && ReferencedConfigMaps(d) == {configMapName}
  {
    var d := DesiredDeployment(web, configMapName);
    var pod := d.spec.template.spec;
    assert pod.volumes[0] in pod.volumes;
    assert ReferencedConfigMaps(d) == {configMapName} by {
      assert forall v :: v in pod.volumes ==> v == pod.volumes[0];
    }
  }

  /** The ConfigMap depends on exactly the Web's name, namespace and content. */
  lemma ConfigMapInputs(w1: Web, w2: Web)
    ensures DesiredConfigMap(w1) == DesiredConfigMap(w2) <==>
      && w1.meta.name == w2.meta.name
      && w1.meta.namespace == w2.meta.namespace
      && w1.spec.htmlContent == w2.spec.htmlContent
  {
    var c1, c2 := DesiredConfigMap(w1), DesiredConfigMap(w2);
    if c1 == c2 {
      ConfigMapNameInjective(w1.meta.name, w2.meta.name);
      assert c1.data[IndexFile] == c2.data[IndexFile];
    }
  }

  /** The Deployment depends on exactly the Web's name, namespace and image and the
      ConfigMap name: in particular the spec's size and container port never reach it. */
  lemma DeploymentInputs(w1: Web, w2: Web, cm1: string, cm2: string)
    ensures DesiredDeployment(w1, cm1) == DesiredDeployment(w2, cm2) <==>
      && w1.meta.name == w2.meta.name
      && w1.meta.namespace == w2.meta.namespace
      && w1.spec.image == w2.spec.image
      && cm1 == cm2
  {
    var d1, d2 := DesiredDeployment(w1, cm1), DesiredDeployment(w2, cm2);
    if d1 == d2 {
      DeploymentNameInjective(w1.meta.name, w2.meta.name);
      assert d1.spec.template.spec.volumes[0] == d2.spec.template.spec.volumes[0];
      assert d1.spec.template.spec.containers[0] == d2.spec.template.spec.containers[0];
    }
  }
}

=== FILE: naming.dfy ===
/** The names the controller derives from a Web: dependent names, their keys, and
    the pod labels. */
module Naming {
  import opened Api

  const ConfigMapSuffix := "-cm"
  const DeploymentSuffix := "deployment"
  const AppLabel := "app"

  /** Name of the ConfigMap that holds a Web's content. */
  function ConfigMapName(webName: string): string
  {
    webName + ConfigMapSuffix
  }

  /** Name of the Deployment that serves a Web (no separator before the suffix). */
  function DeploymentName(webName: string): string
  {
    webName + DeploymentSuffix
  }

  /** Where a Web's ConfigMap lives: its name, in the Web's namespace. */
  function ConfigMapKey(web: Web): ObjectKey
  {
    ObjectKey(web.meta.namespace, ConfigMapName(web.meta.name))
  }

  function DeploymentKey(web: Web): ObjectKey
  {
    ObjectKey(web.meta.namespace, DeploymentName(web.meta.name))
  }

  /** The label set used both as the Deployment's selector and on its pods. */
  function AppLabels(webName: string): map<string, string>
  {
    map[AppLabel := webName]
  }

  /** Appending a fixed suffix is injective: the prefix is recovered by cutting it off. */
  lemma {:induction false} SuffixCancels(a: string, b: string, suffix: string)
    requires a + suffix == b + suffix
    ensures a == b
  {
    assert |a| == |b|;
    calc {
      a;
      (a + suffix)[..|a|];
      (b + suffix)[..|b|];
      b;
    }
  }

  /** Distinct Web names give distinct ConfigMap names. */
  lemma ConfigMapNameInjective(a: string, b: string)
    ensures ConfigMapName(a) == ConfigMapName(b) <==> a == b
  {
    if ConfigMapName(a) == ConfigMapName(b) {
      SuffixCancels(a, b, ConfigMapSuffix);
    }
  }

  /** Distinct Web names give distinct Deployment names; in particular the Webs `x`
      and `xdeployment` get `xdeployment` and `xdeploymentdeployment`. */
  lemma DeploymentNameInjective(a: string, b: string)
    ensures DeploymentName(a) == DeploymentName(b) <==> a == b
  {
    if DeploymentName(a) == DeploymentName(b) {
      SuffixCancels(a, b, DeploymentSuffix);
    }
  }

  /** Distinct Webs in one namespace never share a dependent key. */
  lemma DependentKeysInjective(w1: Web, w2: Web)
    requires w1.meta.namespace == w2.meta.namespace
    requires w1.meta.name != w2.meta.name
    ensures ConfigMapKey(w1) != ConfigMapKey(w2)
    ensures DeploymentKey(w1) != DeploymentKey(w2)
  {
    ConfigMapNameInjective(w1.meta.name, w2.meta.name);
    DeploymentNameInjective(w1.meta.name, w2.meta.name);
  }
}

=== FILE: properties.dfy ===
/** What one reconcile pass promises: what it creates, what it forgives, where it
    stops, and that a second pass has nothing left to do. */
module Properties {
  import opened Api
  import opened Store
  import opened Naming
  import opened Desired
  import opened Reconciler

  /** The Web at `req` exists and both of its dependents exist. */
  ghost predicate Converged(s: Store, req: ObjectKey)
  {
    && req in s.webs
    && ConfigMapKey(s.webs[req]) in s.configMaps
    && DeploymentKey(s.webs[req]) in s.deployments
  }

  /** Faults under which a pass's Done is conclusive: the Web is read from the store,
      and no Create reports AlreadyExists that the store does not bear out. Stale
      dependent reads, owner-reference errors and other Create errors may all occur. */
  predicate ConclusiveFaults(faults: Faults, req: ObjectKey)
  {
    && GetCall(WebKind, req) !in faults
    && forall c :: c in faults && c.CreateCall? ==> !IsAlreadyExists(faults[c])
  }

  /** A missing ConfigMap is created as the desired one, carrying the Web's
      controller reference, and it is the first write of the pass. */
  lemma CreatesMissingConfigMap(s: Store, faults: Faults, req: ObjectKey)
    requires req in s.webs && GetCall(WebKind, req) !in faults
    requires ConfigMapKey(s.webs[req]) !in s.configMaps
    requires Unfaulted(faults, ConfigMapKind, ConfigMapKey(s.webs[req]))
    ensures var web := s.webs[req]; var p := Reconcile(s, faults, req);
      && |p.writes| >= 1 && p.writes[0] == Write(ConfigMapKind, ConfigMapKey(web))
      && ConfigMapKey(web) in p.store.configMaps
      && var cm := p.store.configMaps[ConfigMapKey(web)];
      && cm.meta == ObjectMeta(web.meta.name + "-cm", web.meta.namespace, [ControllerRef(web)])
      && cm.data == map["index.html" := web.spec.htmlContent]
  {
  }

  /** A missing Deployment (once the ConfigMap step has succeeded) is created as the
      desired one: it mounts the Web's ConfigMap by its derived name, carries the
      Web's controller reference, and is the last write of the pass. */
  lemma CreatesMissingDeployment(s: Store, faults: Faults, req: ObjectKey)
    requires WellFormed(s)
    requires req in s.webs && GetCall(WebKind, req) !in faults
    requires ConfigMapStep(s, faults, s.webs[req]).0.outcome == Done
    requires DeploymentKey(s.webs[req]) !in s.deployments
    requires Unfaulted(faults, DeploymentKind, DeploymentKey(s.webs[req]))
    ensures var web := s.webs[req]; var p := Reconcile(s, faults, req);
      && p.outcome == Done
      && |p.writes| >= 1 && p.writes[|p.writes| - 1] == Write(DeploymentKind, DeploymentKey(web))
      && DeploymentKey(web) in p.store.deployments
      && var d := p.store.deployments[DeploymentKey(web)];
      && d.meta == ObjectMeta(web.meta.name + "deployment", web.meta.namespace, [ControllerRef(web)])
      && d.spec.replicas.None?
      && d.spec.selector == map["app" := web.meta.name]
      && d.spec.template.labels == map["app" := web.meta.name]
      && d.spec.template.spec.containers == [Container("web-container", web.spec.image, [VolumeMount("html", "/app")])]
      && d.spec.template.spec.volumes == [Volume("html", ConfigMapSource(web.meta.name + "-cm"))]
  {
    var web := s.webs[req];
    var (cm, name) := ConfigMapStep(s, faults, web);
    // the mounted name is the stored ConfigMap's own name, which is its key's name
    ReconcilePreservesWellFormed(s, faults, req);
    assert WellFormed(cm.store);
    assert name == ConfigMapName(web.meta.name);
    var dep := DeploymentStep(cm.store, faults, web, name);
  }

  /** With no faults and no dependents yet, a pass creates the ConfigMap and then
      the Deployment, and the Deployment's volume names exactly that ConfigMap. */
  lemma ConfigMapBeforeDeployment(s: Store, req: ObjectKey)
    requires req in s.webs
    requires ConfigMapKey(s.webs[req]) !in s.configMaps
    requires DeploymentKey(s.webs[req]) !in s.deployments
    ensures var web := s.webs[req]; var p := Reconcile(s, NoFaults, req);
      && p.writes == [Write(ConfigMapKind, ConfigMapKey(web)), Write(DeploymentKind, DeploymentKey(web))]
      && p.outcome == Done
      && ReferencedConfigMaps(p.store.deployments[DeploymentKey(web)])
         == {p.store.configMaps[ConfigMapKey(web)].meta.name}
  {
    var web := s.webs[req];
    DeploymentShape(web, ConfigMapName(web.meta.name));
  }

  /** A Create that reports AlreadyExists counts as success: with only stale NotFound reads
      and lost create races as faults, a pass for an existing Web ends in Done and
      never writes over an existing object. */
  lemma AlreadyExistsIsSuccess(s: Store, faults: Faults, req: ObjectKey)
    requires req in s.webs && GetCall(WebKind, req) !in faults
    requires forall c :: c in faults ==>
      || (c.GetCall? && faults[c] == NotFound)
      || (c.CreateCall? && faults[c] == AlreadyExists)
    ensures Reconcile(s, faults, req).outcome == Done
  {
  }

  /** A stale read of a dependent that another pass already created: the Create
      hits AlreadyExists, the pass still succeeds, and nothing is written. */
  lemma LostCreateRace(s: Store, req: ObjectKey)
    requires Converged(s, req)
    ensures var web := s.webs[req];
      var stale := map[GetCall(ConfigMapKind, ConfigMapKey(web)) := NotFound,
                       GetCall(DeploymentKind, DeploymentKey(web)) := NotFound];
      var p := Reconcile(s, stale, req);
      && p.outcome == Done && p.writes == [] && p.store == s
      && CreateCall(ConfigMapKind, ConfigMapKey(web)) in p.calls
      && CreateCall(DeploymentKind, DeploymentKey(web)) in p.calls
  {
  }

  /** Any failure of the ConfigMap step (a Get error other than NotFound, an
      owner-reference error, a Create error other than AlreadyExists) ends the pass
      with that error, with no write, and before the Deployment is looked at; an
      owner-reference error also stops the Create. */
  lemma ConfigMapFailureShortCircuits(s: Store, faults: Faults, req: ObjectKey)
    requires req in s.webs && GetCall(WebKind, req) !in faults
    ensures var k := ConfigMapKey(s.webs[req]); var p := Reconcile(s, faults, req);
      var getWeb := GetCall(WebKind, req);
      && (GetCall(ConfigMapKind, k) in faults && !IsNotFound(faults[GetCall(ConfigMapKind, k)]) ==>
            p == Pass(s, [getWeb, GetCall(ConfigMapKind, k)], [], Failed(faults[GetCall(ConfigMapKind, k)])))
      && (GetsNotFound(s.configMaps, faults, ConfigMapKind, k) && SetOwnerCall(ConfigMapKind, k) in faults ==>
            p == Pass(s, [getWeb, GetCall(ConfigMapKind, k), SetOwnerCall(ConfigMapKind, k)], [],
                      Failed(faults[SetOwnerCall(ConfigMapKind, k)])))
      && (GetsNotFound(s.configMaps, faults, ConfigMapKind, k) && SetOwnerCall(ConfigMapKind, k) !in faults
          && CreateCall(ConfigMapKind, k) in faults && !IsAlreadyExists(faults[CreateCall(ConfigMapKind, k)]) ==>
            p == Pass(s, [getWeb] + StepCalls(ConfigMapKind, k), [], Failed(faults[CreateCall(ConfigMapKind, k)])))
  {
  }

  /** Once the ConfigMap step has ended in Done, any failure of the Deployment step
      ends the pass with that error and leaves the Deployments as they were; an owner-reference error also stops the Create. */
  lemma DeploymentFailureShortCircuits(s: Store, faults: Faults, req: ObjectKey)
    requires req in s.webs && GetCall(WebKind, req) !in faults
    requires ConfigMapStep(s, faults, s.webs[req]).0.outcome == Done
    ensures var k := DeploymentKey(s.webs[req]); var p := Reconcile(s, faults, req);
      && (GetCall(DeploymentKind, k) in faults && !IsNotFound(faults[GetCall(DeploymentKind, k)]) ==>
            && p.outcome == Failed(faults[GetCall(DeploymentKind, k)])
            && p.calls[|p.calls| - 1] == GetCall(DeploymentKind, k)
            && p.store.deployments == s.deployments)
      && (GetsNotFound(s.deployments, faults, DeploymentKind, k) && SetOwnerCall(DeploymentKind, k) in faults ==>
            && p.outcome == Failed(faults[SetOwnerCall(DeploymentKind, k)])
            && p.calls[|p.calls| - 1] == SetOwnerCall(DeploymentKind, k)
            && CreateCall(DeploymentKind, k) !in p.calls
            && p.store.deployments == s.deployments)
      && (GetsNotFound(s.deployments, faults, DeploymentKind, k) && SetOwnerCall(DeploymentKind, k) !in faults
          && CreateCall(DeploymentKind, k) in faults && !IsAlreadyExists(faults[CreateCall(DeploymentKind, k)]) ==>
            && p.outcome == Failed(faults[CreateCall(DeploymentKind, k)])
            && p.calls[|p.calls| - 1] == CreateCall(DeploymentKind, k)
            && p.store.deployments == s.deployments)
  {
    var web := s.webs[req];
    var k := DeploymentKey(web);
    var (cm, name) := ConfigMapStep(s, faults, web);
    var dep := DeploymentStep(cm.store, faults, web, name);
    var e := EnsureObject(s.deployments, faults, DeploymentKind, k, OwnedDeployment(web, name, faults));
    assert dep.calls == e.calls && dep.store.deployments == e.m;
    assert dep.outcome == if e.err.Some? then Failed(e.err.value) else Done;
    var p := Reconcile(s, faults, req);
    assert p.calls == [GetCall(WebKind, req)] + cm.calls + e.calls;
    assert p.outcome == dep.outcome && p.store == dep.store;
  }

  /** The only writes are creates of absent dependents: at most the ConfigMap,
      then at most the Deployment, each under a key that was free. */
  lemma WritesAreOrderedCreates(s: Store, faults: Faults, req: ObjectKey)
    ensures var p := Reconcile(s, faults, req);
      && (p.writes != [] ==> req in s.webs)
      && (req in s.webs ==>
            var cmW := Write(ConfigMapKind, ConfigMapKey(s.webs[req]));
            var depW := Write(DeploymentKind, DeploymentKey(s.webs[req]));
            && (p.writes == [] || p.writes == [cmW] || p.writes == [depW] || p.writes == [cmW, depW])
            && (cmW in p.writes ==> cmW.key !in s.configMaps)
            && (depW in p.writes ==> depW.key !in s.deployments))
  {
    var p := Reconcile(s, faults, req);
    if req in s.webs && GetCall(WebKind, req) !in faults {
      var web := s.webs[req];
      var cmW := Write(ConfigMapKind, ConfigMapKey(web));
      var depW := Write(DeploymentKind, DeploymentKey(web));
      var (cm, name) := ConfigMapStep(s, faults, web);
      assert cm.writes == [] || (cm.writes == [cmW] && cmW.key !in s.configMaps);
      if cm.outcome.Failed? {
        assert p.writes == cm.writes;
      } else {
        var dep := DeploymentStep(cm.store, faults, web, name);
        assert dep.writes == [] || (dep.writes == [depW] && depW.key !in s.deployments);
        assert p.writes == cm.writes + dep.writes;
        if cm.writes == [] {
          assert p.writes == dep.writes;
        } else if dep.writes == [] {
          assert p.writes == cm.writes;
        } else {
          assert p.writes == [cmW, depW];
        }
      }
    }
  }

  /** An existing ConfigMap or Deployment is never changed, even when it no longer
      matches the Web's spec. */
  lemma ExistingDependentsUntouched(s: Store, faults: Faults, req: ObjectKey, k: ObjectKey)
    ensures var p := Reconcile(s, faults, req);
      && (k in s.configMaps ==> k in p.store.configMaps && p.store.configMaps[k] == s.configMaps[k])
      && (k in s.deployments ==> k in p.store.deployments && p.store.deployments[k] == s.deployments[k])
      && p.store.webs == s.webs
  {
  }

  /** A pass keeps every object stored under the key its metadata names. */
  lemma ReconcilePreservesWellFormed(s: Store, faults: Faults, req: ObjectKey)
    requires WellFormed(s)
    ensures WellFormed(Reconcile(s, faults, req).store)
  {
    if req in s.webs && GetCall(WebKind, req) !in faults {
      var web := s.webs[req];
      var (cm, name) := ConfigMapStep(s, faults, web);
      ConfigMapStepKeepsWellFormed(s, faults, web);
      if cm.outcome.Done? {
        DeploymentStepKeepsWellFormed(cm.store, faults, web, name);
      }
    }
  }

  lemma ConfigMapStepKeepsWellFormed(s: Store, faults: Faults, web: Web)
    requires WellFormed(s)
    ensures WellFormed(ConfigMapStep(s, faults, web).0.store)
  {
    var r := ConfigMapStep(s, faults, web);
    var k := ConfigMapKey(web);
    if r.0.writes != [] {
      ConfigMapShape(web);
      assert r.0.store.configMaps == s.configMaps[k := r.0.store.configMaps[k]];
    } else {
      assert r.0.store.configMaps == s.configMaps;
    }
  }

  lemma DeploymentStepKeepsWellFormed(s: Store, faults: Faults, web: Web, name: string)
    requires WellFormed(s)
    ensures WellFormed(DeploymentStep(s, faults, web, name).store)
  {
    var p := DeploymentStep(s, faults, web, name);
    var k := DeploymentKey(web);
    if p.writes != [] {
      DeploymentShape(web, name);
      assert p.store.deployments == s.deployments[k := p.store.deployments[k]];
    } else {
      assert p.store.deployments == s.deployments;
    }
  }

  /** Once the Web's dependents exist, a fault-free pass reads the three objects,
      writes nothing and succeeds. */
  lemma ConvergedIsFixpoint(s: Store, req: ObjectKey)
    requires Converged(s, req)
    ensures var web := s.webs[req]; var p := Reconcile(s, NoFaults, req);
      && p == Pass(s, [GetCall(WebKind, req), GetCall(ConfigMapKind, ConfigMapKey(web)),
                       GetCall(DeploymentKind, DeploymentKey(web))], [], Done)
  {
  }

  /** A fault-free pass on an existing Web leaves both dependents in place. */
  lemma CleanPassConverges(s: Store, req: ObjectKey)
    requires req in s.webs
    ensures Converged(Reconcile(s, NoFaults, req).store, req)
  {
  }

  /** Idempotence: a second fault-free pass repeats the first one's outcome, Done,
      with no writes and no change. */
  lemma Idempotent(s: Store, req: ObjectKey)
    ensures var p1 := Reconcile(s, NoFaults, req); var p2 := Reconcile(p1.store, NoFaults, req);
      && p1.outcome == Done && p2.outcome == Done
      && p2.writes == [] && p2.store == p1.store
  {
    var p1 := Reconcile(s, NoFaults, req);
    if req in s.webs {
      CleanPassConverges(s, req);
      ConvergedIsFixpoint(p1.store, req);
    }
  }

  /** A pass that ends in Done, whatever stale NotFound reads or forgiven AlreadyExists it met
      on the way, leaves both dependents in place: Done means nothing is left to do. */
  lemma DoneMeansConverged(s: Store, faults: Faults, req: ObjectKey)
    requires req in s.webs && ConclusiveFaults(faults, req)
    requires Reconcile(s, faults, req).outcome == Done
    ensures Converged(Reconcile(s, faults, req).store, req)
  {
  }

  /** Idempotence from any successful pass: after a pass that ended in Done, a
      fault-free pass succeeds with no writes and no change. */
  lemma IdempotentAfterDone(s: Store, faults: Faults, req: ObjectKey)
    requires req in s.webs && ConclusiveFaults(faults, req)
    requires Reconcile(s, faults, req).outcome == Done
    ensures var p1 := Reconcile(s, faults, req); var p2 := Reconcile(p1.store, NoFaults, req);
      && p2.outcome == Done && p2.writes == [] && p2.store == p1.store
  {
    DoneMeansConverged(s, faults, req);
    ConvergedIsFixpoint(Reconcile(s, faults, req).store, req);
  }

  /** Resumability: with the ConfigMap in place and the Deployment missing, a
      fault-free pass creates only the Deployment. */
  lemma CreatesOnlyMissingDeployment(s: Store, req: ObjectKey)
    requires req in s.webs
    requires ConfigMapKey(s.webs[req]) in s.configMaps
    requires DeploymentKey(s.webs[req]) !in s.deployments
    ensures var p := Reconcile(s, NoFaults, req);
      && p.outcome == Done
      && p.writes == [Write(DeploymentKind, DeploymentKey(s.webs[req]))]
      && p.store.configMaps == s.configMaps
  {
  }

  /** Resumability after a partial failure: if the Deployment's Create fails after
      the ConfigMap was created, the next fault-free pass creates only the
      Deployment and leaves that ConfigMap as it is. */
  lemma ResumesAfterDeploymentFailure(s: Store, req: ObjectKey, e: ApiError)
    requires req in s.webs
    requires ConfigMapKey(s.webs[req]) !in s.configMaps
    requires DeploymentKey(s.webs[req]) !in s.deployments
    requires !IsAlreadyExists(e)
    ensures var outage := map[CreateCall(DeploymentKind, DeploymentKey(s.webs[req])) := e];
      var p1 := Reconcile(s, outage, req);
      var p2 := Reconcile(p1.store, NoFaults, req);
      && p1.outcome == Failed(e)
      && p1.writes == [Write(ConfigMapKind, ConfigMapKey(s.webs[req]))]
      && p2.outcome == Done
      && p2.writes == [Write(DeploymentKind, DeploymentKey(s.webs[req]))]
      && p2.store.configMaps == p1.store.configMaps
  {
    var outage := map[CreateCall(DeploymentKind, DeploymentKey(s.webs[req])) := e];
    var p1 := Reconcile(s, outage, req);
    CreatesOnlyMissingDeployment(p1.store, req);
  }
}

=== FILE: reconciler.dfy ===
/** WebReconciler.Reconcile as a pure function of the store, the fault oracle and
    the request: fetch the Web, then make sure its ConfigMap and then its Deployment
    exist, creating each one that is absent and stopping at the first failure. */
module Reconciler {
  import opened Api
  import opened Store
  import opened Naming
  import opened Desired

  /** The outcome of a pass: `Done` (ctrl.Result{} with no error) or the error that
      the work queue retries with backoff. */
  datatype Outcome = Done | Failed(err: ApiError)

  /** A successful Create: the only kind of write the controller makes. */
  datatype Write = Write(kind: Kind, key: ObjectKey)

  /** One reconcile pass: the store afterwards, every API call in order, the writes
      in order, and the outcome. */
  datatype Pass = Pass(store: Store, calls: seq<Call>, writes: seq<Write>, outcome: Outcome)

  /** What one "get, else build, own and create" step did to one kind's map. */
  datatype Ensured<T> = Ensured(
    m: map<ObjectKey, T>,
    calls: seq<Call>,
    created: bool,
    found: Option<T>,
    err: Option<ApiError>)

  /** The three calls a step makes when the dependent is missing. */
  function StepCalls(kind: Kind, key: ObjectKey): seq<Call>
  {
    [GetCall(kind, key), SetOwnerCall(kind, key), CreateCall(kind, key)]
  }

  /** One dependent step. `owned` is the desired object after SetControllerReference
      (or that call's error); being pure, it is only consulted, and its call only
      recorded, when the Get reports NotFound.
      The step fails on a Get error other than NotFound, on an owner-reference
      error, and on a Create error other than AlreadyExists; otherwise the object is
      either found (and left untouched) or created when the key is free. */
  function EnsureObject<T>(m: map<ObjectKey, T>, faults: Faults, kind: Kind, key: ObjectKey, owned: Result<T>)
    : (r: Ensured<T>)
    ensures 1 <= |r.calls| <= 3 && r.calls == StepCalls(kind, key)[..|r.calls|]
    // the object is found exactly when the Get succeeds, and is then the stored one
    ensures r.found.Some? <==> GetCall(kind, key) !in faults && key in m
    ensures r.found.Some? ==> r.found.value == m[key] && r.calls == [GetCall(kind, key)] && r.err.None?
    // a Get failure other than NotFound aborts the step before anything else
    ensures GetCall(kind, key) in faults && !IsNotFound(faults[GetCall(kind, key)]) ==>
      r.calls == [GetCall(kind, key)] && r.err == Some(faults[GetCall(kind, key)])
    // a Get reporting NotFound (key absent, or a stale read) goes on to set the owner and, if that works, to Create
    ensures GetsNotFound(m, faults, kind, key) ==>
      r.calls == StepCalls(kind, key)[..if owned.Ok? then 3 else 2]
    // an owner-reference failure aborts the step before Create is attempted
    ensures CreateCall(kind, key) in r.calls <==> (r.found.None? && |r.calls| > 1 && owned.Ok?)
    ensures |r.calls| > 1 && owned.Err? ==> r.err == Some(owned.error)
    // a successful create stores exactly the owned object under a free key; otherwise nothing changes
    ensures r.created <==> CreateCall(kind, key) in r.calls && CreateCall(kind, key) !in faults && key !in m
    ensures r.created ==> r.m == m[key := owned.value] && r.err.None?
    ensures !r.created ==> r.m == m
    // only AlreadyExists is forgiven among Create errors
    ensures CreateCall(kind, key) in r.calls && CreateCall(kind, key) in faults ==>
      r.err == (if IsAlreadyExists(faults[CreateCall(kind, key)]) then None else Some(faults[CreateCall(kind, key)]))
    ensures CreateCall(kind, key) in r.calls && CreateCall(kind, key) !in faults ==> r.err.None?
    // success leaves the object present, unless the only thing seen was an injected AlreadyExists
    ensures r.err.None? && CreateCall(kind, key) !in faults ==> key in r.m
  {
    var get := GetCall(kind, key);
    match Get(m, faults, get, key)
    case Found(obj) => Ensured(m, [get], false, Some(obj), None)
    case GetFailed(e) =>
      if !IsNotFound(e) then Ensured(m, [get], false, None, Some(e))
      else
        var own := SetOwnerCall(kind, key);
        match owned
        case Err(oe) => Ensured(m, [get, own], false, None, Some(oe))
        case Ok(obj) =>
          var create := CreateCall(kind, key);
          var (m', ce) := Create(m, faults, create, key, obj);
          var err := if ce.Some? && !IsAlreadyExists(ce.value) then ce else None;
          Ensured(m', [get, own, create], ce.None?, None, err)
  }

  /** The desired ConfigMap with the Web's controller reference, or the error. */
  function OwnedConfigMap(web: Web, faults: Faults): Result<ConfigMap>
  {
    var cm := DesiredConfigMap(web);
    match SetControllerReference(web, cm.meta, faults, SetOwnerCall(ConfigMapKind, ConfigMapKey(web)))
    case Ok(meta) => Ok(cm.(meta := meta))
    case Err(e) => Err(e)
  }

  /** The desired Deployment with the Web's controller reference, or the error. */
  function OwnedDeployment(web: Web, configMapName: string, faults: Faults): Result<Deployment>
  {
    var d := DesiredDeployment(web, configMapName);
    match SetControllerReference(web, d.meta, faults, SetOwnerCall(DeploymentKind, DeploymentKey(web)))
    case Ok(meta) => Ok(d.(meta := meta))
    case Err(e) => Err(e)
  }

  function WriteIf(created: bool, kind: Kind, key: ObjectKey): seq<Write>
  {
    if created then [Write(kind, key)] else []
  }

  /** The keys of the writes of one kind. */
  function WrittenKeys(writes: seq<Write>, kind: Kind): set<ObjectKey>
  {
    set w | w in writes && w.kind == kind :: w.key
  }

  /** A map after a step equals the map before plus the keys the step wrote. */
  ghost predicate Accounts<T>(m: map<ObjectKey, T>, m': map<ObjectKey, T>, writes: seq<Write>, kind: Kind)
  {
    m'.Keys == m.Keys + WrittenKeys(writes, kind)
  }

  /** The ConfigMap step (fetch, and create when absent) for a fetched Web. Besides
      the pass, it returns the ConfigMap name the Deployment will mount. */
  function ConfigMapStep(s: Store, faults: Faults, web: Web): (r: (Pass, string))
    ensures r.0.store.webs == s.webs && r.0.store.deployments == s.deployments
    ensures Keeps(s.configMaps, r.0.store.configMaps)
    ensures Accounts(s.configMaps, r.0.store.configMaps, r.0.writes, ConfigMapKind)
    ensures WrittenKeys(r.0.writes, DeploymentKind) == {}
    // the only possible write is the creation of the owned desired ConfigMap under a free key
    ensures var k := ConfigMapKey(web);
      || r.0.writes == []
      || (&& r.0.writes == [Write(ConfigMapKind, k)] && k !in s.configMaps
          && r.0.store.configMaps[k] == DesiredConfigMap(web).(meta := OwnedMeta(DesiredConfigMap(web).meta, web)))
    // without faults the step succeeds and hands on the name of the ConfigMap now stored
    ensures Unfaulted(faults, ConfigMapKind, ConfigMapKey(web)) ==>
      && r.0.outcome == Done
      && ConfigMapKey(web) in r.0.store.configMaps
      && r.1 == r.0.store.configMaps[ConfigMapKey(web)].meta.name
    ensures faults == NoFaults ==> r.0.outcome == Done
  {
    var cmKey := ConfigMapKey(web);
    var cm := EnsureObject(s.configMaps, faults, ConfigMapKind, cmKey, OwnedConfigMap(web, faults));
    var w := WriteIf(cm.created, ConfigMapKind, cmKey);
    var outcome := if cm.err.Some? then Failed(cm.err.value) else Done;
    // the name of the ConfigMap the controller holds: the fetched one, or the one it built
    var cmName := if cm.found.Some? then cm.found.value.meta.name else cmKey.name;
    (Pass(s.(configMaps := cm.m), cm.calls, w, outcome), cmName)
  }

  /** The Deployment step (fetch, and create when absent) for a fetched Web whose
      ConfigMap is called `configMapName`. */
  function DeploymentStep(s: Store, faults: Faults, web: Web, configMapName: string): (p: Pass)
    ensures p.store.webs == s.webs && p.store.configMaps == s.configMaps
    ensures Keeps(s.deployments, p.store.deployments)
    ensures Accounts(s.deployments, p.store.deployments, p.writes, DeploymentKind)
    ensures WrittenKeys(p.writes, ConfigMapKind) == {}
    // the only possible write is the creation of the owned desired Deployment under a free key
    ensures var k := DeploymentKey(web);
      || p.writes == []
      || (&& p.writes == [Write(DeploymentKind, k)] && k !in s.deployments
          && p.store.deployments[k]
             == DesiredDeployment(web, configMapName).(meta := OwnedMeta(DesiredDeployment(web, configMapName).meta, web)))
    ensures Unfaulted(faults, DeploymentKind, DeploymentKey(web)) ==>
      p.outcome == Done && DeploymentKey(web) in p.store.deployments
    ensures faults == NoFaults ==> p.outcome == Done
  {
    var depKey := DeploymentKey(web);
    var dep := EnsureObject(s.deployments, faults, DeploymentKind, depKey, OwnedDeployment(web, configMapName, faults));
    var w := WriteIf(dep.created, DeploymentKind, depKey);
    Pass(s.(deployments := dep.m), dep.calls, w, if dep.err.Some? then Failed(dep.err.value) else Done)
  }

  lemma WrittenKeysConcat(w1: seq<Write>, w2: seq<Write>, kind: Kind)
    ensures WrittenKeys(w1 + w2, kind) == WrittenKeys(w1, kind) + WrittenKeys(w2, kind)
  {
  }

  /** One reconcile pass for the Web named by `req`. */
  function Reconcile(s: Store, faults: Faults, req: ObjectKey): (p: Pass)
    // the first call is always the fetch of the Web
    ensures 1 <= |p.calls| && p.calls[0] == GetCall(WebKind, req)
    // a missing Web is a successful no-op, any other fetch error is returned, both with no writes
    ensures GetCall(WebKind, req) in faults || req !in s.webs ==>
      && p.calls == [GetCall(WebKind, req)] && p.writes == [] && p.store == s
      && p.outcome == (if GetCall(WebKind, req) in faults && !IsNotFound(faults[GetCall(WebKind, req)])
                       then Failed(faults[GetCall(WebKind, req)]) else Done)
    // nothing but the listed creates changes the store, and no existing object is touched
    ensures Grows(s, p.store)
    ensures Accounts(s.configMaps, p.store.configMaps, p.writes, ConfigMapKind)
    ensures Accounts(s.deployments, p.store.deployments, p.writes, DeploymentKind)
    // with no faults every pass succeeds
    ensures faults == NoFaults ==> p.outcome == Done
  {
    var getWeb := GetCall(WebKind, req);
    match Get(s.webs, faults, getWeb, req)
    case GetFailed(e) =>
      Pass(s, [getWeb], [], if IsNotFound(e) then Done else Failed(e))
    case Found(web) =>
      var (cm, cmName) := ConfigMapStep(s, faults, web);
      if cm.outcome.Failed? then
        Pass(cm.store, [getWeb] + cm.calls, cm.writes, cm.outcome)
      else
        var dep := DeploymentStep(cm.store, faults, web, cmName);
        WrittenKeysConcat(cm.writes, dep.writes, ConfigMapKind);
        WrittenKeysConcat(cm.writes, dep.writes, DeploymentKind);
        Pass(dep.store, [getWeb] + cm.calls + dep.calls, cm.writes + dep.writes, dep.outcome)
  }
}

=== FILE: retry.dfy ===
/** The work queue's view: Reconcile is invoked again and again for the same Web
    (after an error, with backoff, or on any watched change), each pass meeting its
    own faults. Nothing is remembered between passes except the store. */
module Retry {
  import opened Api
  import opened Store
  import opened Reconciler
  import opened Properties

  /** Runs one pass per entry of `schedule` in order; returns the final store and
      each pass's outcome. */
  function RunPasses(s: Store, schedule: seq<Faults>, req: ObjectKey): (r: (Store, seq<Outcome>))
    ensures |r.1| == |schedule|
    // however the passes fail, no Web is touched and no existing dependent changes
    ensures Grows(s, r.0)
    // a pass that meets no faults succeeds
    ensures forall i :: 0 <= i < |schedule| && schedule[i] == NoFaults ==> r.1[i] == Done
    decreases |schedule|
  {
    if schedule == [] then (s, [])
    else
      var p := Reconcile(s, schedule[0], req);
      var rest := RunPasses(p.store, schedule[1..], req);
      (rest.0, [p.outcome] + rest.1)
  }

  /** Retries converge: once any pass of the schedule meets no faults, the Web's
      ConfigMap and Deployment both exist at the end, whatever failed before or after. */
  lemma {:induction false} CleanPassEventuallyConverges(s: Store, schedule: seq<Faults>, req: ObjectKey, i: nat)
    requires req in s.webs
    requires i < |schedule| && schedule[i] == NoFaults
    ensures Converged(RunPasses(s, schedule, req).0, req)
    decreases i
  {
    var p := Reconcile(s, schedule[0], req);
    var rest := schedule[1..];
    if i == 0 {
      CleanPassConverges(s, req);
      ConvergedPersists(p.store, rest, req);
    } else {
      assert rest[i - 1] == schedule[i];
      CleanPassEventuallyConverges(p.store, rest, req, i - 1);
    }
  }

  /** The work queue stops at the first pass that returns Done: if pass `i` ends in
      Done under conclusive faults, both dependents exist at the end of the schedule. */
  lemma {:induction false} DonePassEventuallyConverges(s: Store, schedule: seq<Faults>, req: ObjectKey, i: nat)
    requires req in s.webs
    requires i < |schedule| && ConclusiveFaults(schedule[i], req)
    requires RunPasses(s, schedule, req).1[i] == Done
    ensures Converged(RunPasses(s, schedule, req).0, req)
    decreases i
  {
    var p := Reconcile(s, schedule[0], req);
    var rest := schedule[1..];
    assert RunPasses(s, schedule, req).1 == [p.outcome] + RunPasses(p.store, rest, req).1;
    if i == 0 {
      DoneMeansConverged(s, schedule[0], req);
      ConvergedPersists(p.store, rest, req);
    } else {
      assert rest[i - 1] == schedule[i];
      DonePassEventuallyConverges(p.store, rest, req, i - 1);
    }
  }

  /** Once converged, the Web stays converged across any further passes. */
  lemma ConvergedPersists(s: Store, schedule: seq<Faults>, req: ObjectKey)
    requires Converged(s, req)
    ensures Converged(RunPasses(s, schedule, req).0, req)
  {
  }

  /** Once converged, a whole schedule of fault-free passes changes nothing. */
  lemma {:induction false} ConvergedIsStable(s: Store, n: nat, req: ObjectKey)
    requires Converged(s, req)
    ensures RunPasses(s, seq(n, _ => NoFaults), req).0 == s
    decreases n
  {
    if n > 0 {
      ConvergedIsFixpoint(s, req);
      assert seq(n, _ => NoFaults)[1..] == seq(n - 1, _ => NoFaults);
      ConvergedIsStable(s, n - 1, req);
    }
  }
}

=== FILE: store.dfy ===
/** The cluster state the controller talks to through its client, made pure: a map
    per object kind, plus a fault oracle that decides which API calls fail. */
module Store {
  import opened Api

  /** The error classes the controller distinguishes (errors.IsNotFound,
      errors.IsAlreadyExists) and everything else. */
  datatype ApiError = NotFound | AlreadyExists | Other(reason: string)

  predicate IsNotFound(e: ApiError)
  {
    e.NotFound?
  }

  predicate IsAlreadyExists(e: ApiError)
  {
    e.AlreadyExists?
  }

  /** One call the controller makes against the API: the fault oracle and the
      call trace are both keyed on it. */
  datatype Call =
    | GetCall(kind: Kind, key: ObjectKey)
    | SetOwnerCall(kind: Kind, key: ObjectKey)
    | CreateCall(kind: Kind, key: ObjectKey)

  /** The fault oracle: a call listed here fails with the given error instead of
      consulting the store. An injected NotFound on a Get stands for a stale NotFound read. */
  type Faults = map<Call, ApiError>

  const NoFaults: Faults := map[]

  /** None of the calls of one dependent step is faulted. */
  predicate Unfaulted(faults: Faults, kind: Kind, key: ObjectKey)
  {
    && GetCall(kind, key) !in faults
    && SetOwnerCall(kind, key) !in faults
    && CreateCall(kind, key) !in faults
  }

  /** The Get of one dependent reports NotFound: the key is absent, or the read is
      stale. */
  predicate GetsNotFound<T>(m: map<ObjectKey, T>, faults: Faults, kind: Kind, key: ObjectKey)
  {
    if GetCall(kind, key) in faults then IsNotFound(faults[GetCall(kind, key)]) else key !in m
  }

  datatype Store = Store(
    webs: map<ObjectKey, Web>,
    configMaps: map<ObjectKey, ConfigMap>,
    deployments: map<ObjectKey, Deployment>)

  /** Every stored object sits under the key its own metadata names. */
  ghost predicate WellFormed(s: Store)
  {
    && (forall k :: k in s.webs ==> KeyOf(s.webs[k].meta) == k)
    && (forall k :: k in s.configMaps ==> KeyOf(s.configMaps[k].meta) == k)
    && (forall k :: k in s.deployments ==> KeyOf(s.deployments[k].meta) == k)
  }

  /** `m'` keeps every entry of `m` unchanged (it may add new keys). */
  ghost predicate Keeps<T>(m: map<ObjectKey, T>, m': map<ObjectKey, T>)
  {
    && m.Keys <= m'.Keys
    && forall k :: k in m ==> m'[k] == m[k]
  }

  /** `t` differs from `s` only by newly created dependents: Webs are untouched and
      no existing ConfigMap or Deployment is changed or removed. */
  ghost predicate Grows(s: Store, t: Store)
  {
    && t.webs == s.webs
    && Keeps(s.configMaps, t.configMaps)
    && Keeps(s.deployments, t.deployments)
  }

  datatype GetResult<T> = Found(obj: T) | GetFailed(err: ApiError)

  /** The client's Get: the stored object, NotFound when the key is absent, or the
      injected error. */
  function Get<T>(m: map<ObjectKey, T>, faults: Faults, call: Call, key: ObjectKey): (r: GetResult<T>)
    ensures r.Found? ==> call !in faults && key in m && r.obj == m[key]
    ensures call !in faults ==> (r.Found? <==> key in m)
    ensures call !in faults && key !in m ==> r == GetFailed(NotFound)
    ensures call in faults ==> r == GetFailed(faults[call])
  {
    if call in faults then GetFailed(faults[call])
    else if key in m then Found(m[key])
    else GetFailed(NotFound)
  }

  /** The client's Create: atomic and conflict-detecting. It stores `obj` under a
      free key, reports AlreadyExists on an occupied one, and changes nothing when
      it fails. */
  function Create<T>(m: map<ObjectKey, T>, faults: Faults, call: Call, key: ObjectKey, obj: T)
    : (r: (map<ObjectKey, T>, Option<ApiError>))
    ensures r.1.None? <==> call !in faults && key !in m
    ensures r.1.None? ==> r.0 == m[key := obj]
    ensures r.1.Some? ==> r.0 == m
    ensures call !in faults && key in m ==> r.1 == Some(AlreadyExists)
    ensures call in faults ==> r.1 == Some(faults[call])
  {
    if call in faults then (m, Some(faults[call]))
    else if key in m then (m, Some(AlreadyExists))
    else (m[key := obj], None)
  }

  datatype Result<T> = Ok(value: T) | Err(error: ApiError)

  /** The controller owner reference that ties a dependent to `owner`. */
  function ControllerRef(owner: Web): OwnerRef
  {
    OwnerRef(WebKind, owner.meta.name, true)
  }

  /** `meta` with `owner`'s controller reference added. */
  function OwnedMeta(meta: ObjectMeta, owner: Web): ObjectMeta
  {
    meta.(ownerRefs := meta.ownerRefs + [ControllerRef(owner)])
  }

  /** ctrl.SetControllerReference on a freshly built object: it either fails (as the
      oracle says) or adds the owner's controller reference to the metadata. */
  function SetControllerReference(owner: Web, meta: ObjectMeta, faults: Faults, call: Call): (r: Result<ObjectMeta>)
    ensures r.Err? <==> call in faults
    ensures r.Err? ==> r.error == faults[call]
    ensures r.Ok? ==> && r.value.name == meta.name
                      && r.value.namespace == meta.namespace
                      && r.value.ownerRefs == meta.ownerRefs + [ControllerRef(owner)]
  {
    if call in faults then Err(faults[call])
    else Ok(OwnedMeta(meta, owner))
  }
}
